=== FILE: README.md ===
# Zone command relay: host, STM32 relay and Arduino slave

The system drives irrigation-style "zones" from a Raspberry Pi. The host
(`rasbery_py.py`) writes a two-byte frame `[zone, command]` to an STM32 over
UART and waits for a single status byte. The STM32 firmware (`stm.c`) checks
the zone, forwards the command byte over I2C to the Arduino at address
`0x20 + zone`, reads one acknowledgment byte back and relays it, or its own
error code, to the host. The Arduino sketch (`arduino_temp.cpp`) keeps the
last command byte and a status byte. Command `0x05` sets the status to `0x00`
and anything else sets it to `0x03`; the sketch returns the status whenever
the master reads. An offline variant of the host (`test_uart.py`) loads a
command table from a `|`-separated file, looks commands up with a random stub
and simulates the send with random errors.

The Dafny project has one module per program, a module for the Python text
operations the table loader relies on, and one module that composes the chain:

- `common.dfy` (`Common`): bytes, `Option`, and the execution time, which is
  kept only as "reported as 0" versus "measured".
- `host_controller.dfy` (`HostController`): `send_command`. It is a method
  over a serial-port object, proved against the pure function `SendOutcome`.
- `stm_relay.dfy` (`StmRelay`): `process_command` and one pass of
  `loop_stm32`. They are methods over the receive buffer (a two-byte array)
  and logs of the UART and I2C traffic, proved against the pure function
  `Process`. The HAL call outcomes are parameters.
- `arduino_slave.dfy` (`ArduinoSlave`): the sketch's two globals as a class,
  updated in place by the two Wire callbacks. The pure `OnReceive` and the
  trace functions `Run`/`Replies` carry the invariants.
- `py_text.dfy` (`PyText`): `str.strip()`, the list comprehension that
  cleans a row, and `int(s, 0)` / `int(s)` on the literals the loader meets,
  with round-trip lemmas against a number printer.
- `test_controller.dfy` (`TestController`): the table loader (a loop proved
  against `LoadRows`), `_result`, the random lookup stub, `execute_command`
  and the simulated `_send`. The random draws are parameters.
- `chain.dfy` (`Chain`): host → STM32 → Arduino composed with a working bus.
  It shows that the relay's "invalid address" and the sketch's "unknown
  command" are the same byte `0x03`, so the host cannot tell them apart.

In `send_command` every path that obtains no device byte (rasbery_py.py:37-42,
58-63, 94-99) reports ERR_STM, "Failed" and time 0; a device error byte is
reported as itself, also with "Failed" (rasbery_py.py:72-90). A `struct.pack` range error
(rasbery_py.py:48) ends in the same `except` branch (rasbery_py.py:92-99) as a
write or a read that raises. The no-response path reports an execution time
of 0 (rasbery_py.py:62). The model keeps each of these as the code has it.

## Model

| member | source | states |
|---|---|---|
| ArduinoSlave.OnReceive | arduino_temp.cpp:21-40 | an empty receive buffer changes nothing; otherwise the first byte becomes the command, and the status is OK exactly when that byte is 0x05 (else 0x03) |
| ArduinoSlave.RunKeepsStatusValid | arduino_temp.cpp:5-45 | from a valid state, any sequence of receive/request events keeps the status in {0x00, 0x03}, and every byte answered to the master is one of these two |
| ArduinoSlave.RequestsChangeNothing | arduino_temp.cpp:42-45 | dropping every request event from a trace leaves the final state unchanged: only receiveEvent writes the globals |
| ArduinoSlave.ReplyAfterCommand | arduino_temp.cpp:21-45 | a request right after the command byte c is answered with 0x00 if c is 0x05 and 0x03 otherwise, whatever the state before |
| ArduinoSlave.Slave.constructor | arduino_temp.cpp:5-6 | both globals start at 0 |
| ArduinoSlave.Slave.ReceiveEvent | arduino_temp.cpp:21-40 | the globals become OnReceive of their old values, and a valid status stays valid |
| ArduinoSlave.Slave.RequestEvent | arduino_temp.cpp:42-45 | writes the current status byte and changes nothing |
| StmRelay.SlaveAddress | stm.c:31 | zones 1..9 map to the 7-bit addresses 0x21..0x29, with no uint8_t wrap-around |
| StmRelay.WireAddress | stm.c:32 | `addr << 1` fits in a byte, is even (write bit clear) and halves back to the slave address |
| StmRelay.Process | stm.c:19-50 | an invalid zone gives ERR_ADDR with no I2C traffic; otherwise the command byte is sent alone to that zone's slave; a failed transmit gives ERR_TX with no receive; otherwise one byte is read from the same slave; a failed receive gives ERR_ACK and a good one is forwarded unchanged; CONFIRM comes back exactly when both transfers succeed and the slave said CONFIRM |
| StmRelay.Relay.constructor | stm.c:17 | the receive buffer is two zero bytes and nothing has been sent yet |
| StmRelay.Relay.ProcessCommand | stm.c:19-50 | exactly one byte is appended to the UART output (the reply of Process) and the I2C log grows by Process's transfers; the buffer is unchanged |
| StmRelay.Relay.LoopOnce | stm.c:52-60 | a failed UART receive changes nothing; a received frame is stored in the buffer and processed as above |
| HostController.Classify | rasbery_py.py:69-83 | each of 0x00, 0x01, 0x02, 0x03 selects its own branch (confirmed, Arduino TX error, Arduino ACK error, invalid address) and only that code does; codes above 0x03 fall into the unknown branch, ERR_STM among them |
| HostController.SendOutcome | rasbery_py.py:35-99 | the command number is always echoed; with no device byte (port closed, values that do not pack, write error, timeout) the result is ERR_STM, "Failed", time 0; a device byte is reported verbatim with a measured time; the status is "OK" exactly for a device CONFIRM and "Failed" otherwise |
| HostController.ErrStmAmbiguous | rasbery_py.py:56-63 | a device that answers 0x04 yields the same error_code and status as no answer at all; only the execution time (measured versus 0) differs |
| HostController.ReadResult | rasbery_py.py:55-56 | send_command obtains a byte exactly when read(1) does not raise and a byte is pending, and then it is the first pending byte |
| HostController.Serial.Write | rasbery_py.py:49 | a write either raises and sends nothing, or appends the whole packet; nothing else about the port changes |
| HostController.Serial.Read1 | rasbery_py.py:55 | read(1) either raises, yielding and consuming nothing, or yields the next pending byte (nothing when none is pending) and consumes what it yields |
| HostController.Stm32Controller.constructor | rasbery_py.py:21-26 | the controller keeps the opened port, or none when opening failed |
| HostController.Stm32Controller.SendCommand | rasbery_py.py:28-99 | the result is SendOutcome of the port's state, a read that raises counting as no byte; the packet [zone, command] is written, zone first, only on an open port with packable values; a byte is consumed only after a successful write, by a read that does not raise |
| PyText.Strip | test_uart.py:58 | the result has no white space at either end and is no longer than the input; it is empty exactly when the input is all white space; a text already trimmed is returned as it is (so strip is idempotent) |
| PyText.StripSplits | test_uart.py:58 | the input is white space, then the result, then white space |
| PyText.StripUnique | test_uart.py:58 | for any split of a text into white space, a trimmed middle and white space, strip returns that middle |
| PyText.Kept | test_uart.py:58 | an item contributes nothing exactly when it is all white space, otherwise one non-empty trimmed field |
| PyText.Normalize | test_uart.py:58 | the cleaned row is no longer than the row, and every field in it is non-empty and trimmed |
| PyText.NormalizeFields | test_uart.py:58 | every non-blank item appears stripped in the cleaned row, and every field of the cleaned row is the stripped form of some non-blank item |
| PyText.NormalizeKeepsCleanRow | test_uart.py:58 | a row of non-empty trimmed fields is left unchanged |
| PyText.NormalizeAppend | test_uart.py:58 | cleaning works item by item: it distributes over concatenation of rows, so order is kept |
| PyText.NormalizeIdempotent | test_uart.py:58 | cleaning a cleaned row changes nothing |
| PyText.ParseDigits | test_uart.py:63-65 | a digit string is accepted exactly when it is non-empty and every character is a digit of the base |
| PyText.ParseUnsignedBase0 | test_uart.py:63 | base 0 accepts a decimal literal with a leading zero only when it is all zeros |
| PyText.ParseIntBase0 | test_uart.py:63 | int(s, 0) on a stripped field: a value only for non-empty text, never negative without a minus sign and never positive with one; its value is pinned by DecimalRoundTrip, NegativeDecimalRoundTrip, HexRoundTrip and LeadingZeroRejected |
| PyText.ParseIntBase10 | test_uart.py:65 | int(s) on a stripped field: a value only for non-empty text, never negative without a minus sign and never positive with one; its value is pinned by DecimalRoundTrip, NegativeDecimalRoundTrip and LeadingZeroRejected |
| PyText.ToDigits | test_uart.py:63-65 | the printer's output is non-empty digits of the base, starting with '0' only for zero |
| PyText.DigitsRoundTrip | test_uart.py:63-65 | reading the printed digits gives the number back, in any base from 2 to 36 |
| PyText.DecimalRoundTrip | test_uart.py:63-65 | a decimal literal reads back as its number with both parsers; in Python this holds below int()'s digit limit (see Left out) |
| PyText.NegativeDecimalRoundTrip | test_uart.py:63-65 | so does a decimal literal with a minus sign, again below int()'s digit limit in Python |
| PyText.UnsignedDecimal | test_uart.py:63 | the unsigned part of base 0 reads a decimal literal back |
| PyText.HexRoundTrip | test_uart.py:63 | a 0x-prefixed hexadecimal literal reads back with int(s, 0) |
| PyText.LeadingZeroRejected | test_uart.py:63-65 | "0" followed by a positive decimal literal is rejected in base 0 but read as the same number in base 10 (in Python, below int()'s digit limit) |
| PyText.LeadingZeroValue | test_uart.py:65 | a leading zero does not change the value of a decimal digit string |
| TestController.ParseRow | test_uart.py:58-74 | a row is accepted exactly when three non-blank fields remain, the first reads with int(x, 0) and the third with int(x); the entry's name is a non-empty trimmed field |
| TestController.LoadRows | test_uart.py:57-74 | the table has at most one entry per row |
| TestController.Accepted | test_uart.py:58-74 | a row contributes at most one entry |
| TestController.LoadRowsEntries | test_uart.py:57-74 | every accepted row's entry is in the table, and every entry of the table comes from an accepted row |
| TestController.LoadRowsAppend | test_uart.py:57-74 | loading keeps row order: the rows a + b load as the table of a followed by the table of b |
| TestController.BadRowSkipped | test_uart.py:59-68 | a rejected row drops only itself; the rows around it load as they would without it |
| TestController.SampleTable | test_uart.py:51-74 | three sample rows load as (OPEN_VALVE, 5, 3) and (CLOSE_VALVE, 6, 3), in that order. The first row is " 0x05 ", "OPEN_VALVE", " 3"; the second ends with a blank fourth field; the third, "x", "BAD", "3", is dropped. |
| TestController.NoRangeCheck | test_uart.py:62-74 | the loader accepts an opcode beyond a byte and a zone beyond 1..9 |
| TestController.Result | test_uart.py:130-137 | name, code and time are passed through; the status is "OK" exactly for code 0x00, otherwise the prefix "Failed", a separator and the text |
| TestController.SimulatedSend | test_uart.py:104-127 | the simulated code is one of 0x00..0x04 with a measured time; the status is "OK" exactly when no error was drawn, otherwise the prefix "Failed", a separator and that code's text from RESPONSE_TEXT |
| TestController.FindCommandStub | test_uart.py:82-89 | the stub always returns a command: the given name, a zone in 1..10 and a number in 0..255 |
| TestController.ExecuteCommand | test_uart.py:92-101 | a missing command gives ERR_CMD, "Failed" with the text "Command not found", time 0; a found one goes to the simulated send; ERR_CMD appears exactly when the command was missing |
| TestController.StubNeverMisses | test_uart.py:82-101 | with the random stub as lookup, execute_command never reports ERR_CMD and always echoes the requested name |
| TestController.Stm32Controller.constructor | test_uart.py:42-48 | the table starts empty and is then filled from the file, or stays empty when there is no file |
| TestController.Stm32Controller.LoadCommandsFromCsv | test_uart.py:51-79 | appends exactly LoadRows of the file's rows to the table; a missing file appends nothing |
| Chain.HealthyBus | arduino_temp.cpp:21-45 | on a working bus the slave's reply to command c is 0x00 if c is 0x05 and 0x03 otherwise |
| Chain.RoundTrip | rasbery_py.py:35-99 | end to end, values that do not pack give ERR_STM; otherwise the host sees CONFIRM exactly for zone 1..9 with command 0x05 and 0x03 for everything else; "OK" exactly in that case |
| Chain.InvalidZoneLooksLikeUnknownCommand | stm.c:24-29 | an out-of-range zone and an unknown command in a valid zone give the host identical results, both classified as an invalid address |
| Chain.RelayToSlave | stm.c:52-60 | relaying a frame for a valid zone stores it in the relay's buffer, logs Process's two I2C transfers, leaves the slave in OnReceive of its old state and sends the host 0x00 for command 0x05 and 0x03 otherwise |

## Left out

- Opening the port with pyserial (port name, baud rate, timeout) and the exception that sets `ser` to None are modelled as a `Serial?` given to the constructor.
- `close()` in both host programs, the `__main__` demonstration and all console output are left out; they change no result.
- The `time.sleep` delays and the float millisecond timings are left out. The execution time is kept only as "0" versus "measured"; the no-response path reports 0 (rasbery_py.py:62), not the time spent waiting.
- SendOutcome: the execution time is `Measured` instead of a float, for the reason above.
- Serial.Write: a partial write is not modelled; a write either raises or sends the whole packet.
- Relay: the return values of the HAL_UART_Transmit calls are ignored, as they are in the firmware.
- LoopOnce: models one pass of the endless `while (1)`. A HAL_UART_Receive that does not return HAL_OK leaves the buffer unchanged; a receive that fills it partially and then fails is not modelled.
- The HAL calls, the I2C peripheral and the timeouts are not modelled; their outcomes are the `BusOutcome` parameter.
- `RPI_ADDR` and `STM_ADDR` are unused in the firmware and are left out.
- The sketch's `setup`/`loop`, the LED blink (`digitalWrite`, `delay`), the unused `howMany` argument and any bytes left unread in the Wire buffer are left out.
- Slave.ReceiveEvent: the Wire receive buffer is a parameter `rx`.
- The sketch's `I2C_ADDR` (0x23) is left out: it is edited per board, and the slave model answers for whichever zone the relay addresses.
- RelayToSlave: runs the slave's callbacks before the relay's pass records its transfers, because on the real bus the two interleave inside the HAL calls.
- LoadCommandsFromCsv: the file arrives already split into rows and fields. csv quoting, the UTF-8 decoding and errors other than a missing file (which propagate in the source) are not modelled.
- ParseIntBase0: underscores between digits and non-ASCII digits, which Python's `int()` also accepts, are not modelled. Decimal literals longer than CPython's int() digit limit (4300 digits by default, configurable with sys.set_int_max_str_digits; hexadecimal is exempt) raise ValueError in Python, so the loader skips such a row; the model accepts them.
- ParseIntBase10: underscores and non-ASCII digits are not modelled, as for ParseIntBase0. Decimal literals longer than CPython's int() digit limit (4300 digits by default, configurable with sys.set_int_max_str_digits; hexadecimal is exempt) raise ValueError in Python, so the loader skips such a row; the model accepts them.
- FindCommandStub: `random.randint` is replaced by its two draws, given as parameters. `ERROR_PROBABILITY` and `random.choice` in `_send` become the `SimulatedOutcome` parameter.
- The loaded command table is never consulted by the test controller, because the lookup is a random stub; no search over it is modelled.

=== FILE: arduino_slave.dfy ===
/** The Arduino sketch (arduino_temp.cpp): an I2C slave that keeps the last
    command byte it received and a status byte it hands back on request. */
module ArduinoSlave {
  import opened Common

  /** The one command the sketch knows (it blinks the on-board LED). */
  const CMD_BLINK: Byte := 0x05
  const STATUS_OK: Byte := 0x00
  const STATUS_UNKNOWN_COMMAND: Byte := 0x03

  /** The two globals of the sketch. */
  datatype SlaveState = SlaveState(command: Byte, status: Byte)

  const Initial: SlaveState := SlaveState(0, STATUS_OK)

  predicate StatusValid(s: SlaveState) {
    s.status == STATUS_OK || s.status == STATUS_UNKNOWN_COMMAND
  }

  /** receiveEvent: when the Wire receive buffer `rx` holds a byte, the first one
      becomes the command and decides the status; otherwise nothing changes. */
  function OnReceive(s: SlaveState, rx: seq<Byte>): (t: SlaveState)
    ensures rx == [] ==> t == s
    ensures rx != [] ==> t.command == rx[0]
    ensures rx != [] ==> (t.status == STATUS_OK <==> rx[0] == CMD_BLINK)
    ensures rx != [] ==> StatusValid(t)
  {
    if rx == [] then s
    else
      var command := rx[0];
      if command == CMD_BLINK then SlaveState(command, STATUS_OK)
      else SlaveState(command, STATUS_UNKNOWN_COMMAND)
  }

  /** The bus events the sketch reacts to, in the order they happen. */
  datatype Event = Receive(rx: seq<Byte>) | Request

  /** The state after a sequence of events. */
  function Run(s: SlaveState, events: seq<Event>): SlaveState
    decreases |events|
  {
    if events == [] then s
    else
      var next := match events[0]
        case Receive(rx) => OnReceive(s, rx)
        case Request => s;
      Run(next, events[1..])
  }

  /** The bytes requestEvent writes on the bus during a sequence of events. */
  function Replies(s: SlaveState, events: seq<Event>): seq<Byte>
    decreases |events|
  {
    if events == [] then []
    else match events[0]
      case Receive(rx) => Replies(OnReceive(s, rx), events[1..])
      case Request => [s.status] + Replies(s, events[1..])
  }

  /** The receive events of a trace, with the requests dropped. */
  function Receives(events: seq<Event>): (r: seq<Event>)
    ensures forall i :: 0 <= i < |r| ==> r[i].Receive?
    decreases |events|
  {
    if events == [] then []
    else if events[0].Request? then Receives(events[1..])
    else [events[0]] + Receives(events[1..])
  }

  /** The status byte only ever takes the two values the sketch assigns, so every
      reply the master reads is one of them. */
  lemma {:induction false} RunKeepsStatusValid(s: SlaveState, events: seq<Event>)
    requires StatusValid(s)
    ensures StatusValid(Run(s, events))
    ensures forall i :: 0 <= i < |Replies(s, events)| ==>
      Replies(s, events)[i] in {STATUS_OK, STATUS_UNKNOWN_COMMAND}
    decreases |events|
  {
    if events != [] {
      match events[0]
      case Receive(rx) => RunKeepsStatusValid(OnReceive(s, rx), events[1..]);
      case Request => RunKeepsStatusValid(s, events[1..]);
    }
  }

  /** Requests change no state: dropping them from a trace leaves the final state as it was. */
  lemma {:induction false} RequestsChangeNothing(s: SlaveState, events: seq<Event>)
    ensures Run(s, Receives(events)) == Run(s, events)
    decreases |events|
  {
    if events != [] {
      match events[0]
      case Receive(rx) =>
        RequestsChangeNothing(OnReceive(s, rx), events[1..]);
        assert ([events[0]] + Receives(events[1..]))[1..] == Receives(events[1..]);
      case Request => RequestsChangeNothing(s, events[1..]);
    }
  }

  /** A request answered right after the command byte `c` was received reports the
      status that byte decided, whatever the state before. */
  lemma ReplyAfterCommand(s: SlaveState, c: Byte)
    ensures Replies(s, [Receive([c]), Request]) == [if c == CMD_BLINK then STATUS_OK else STATUS_UNKNOWN_COMMAND]
  {
    var t := OnReceive(s, [c]);
    assert [Receive([c]), Request][1..] == [Request];
    assert Replies(t, [Request]) == [t.status] + Replies(t, []);
  }

  /** The sketch's globals, overwritten in place by the two Wire callbacks. */
  class Slave {
    var command: Byte
    var status: Byte

    function State(): SlaveState
      reads this
    {
      SlaveState(command, status)
    }

    constructor ()
      ensures State() == Initial
    {
      command := 0;
      status := STATUS_OK;
    }

    /** receiveEvent, with the Wire receive buffer given as `rx`. */
    method ReceiveEvent(rx: seq<Byte>)
      modifies this
      ensures State() == OnReceive(old(State()), rx)
      ensures StatusValid(old(State())) ==> StatusValid(State())
    {
      if rx != [] {
        command := rx[0];
        if command == CMD_BLINK {
          status := STATUS_OK;
        } else {
          status := STATUS_UNKNOWN_COMMAND;
        }
      }
    }

    /** requestEvent: writes the current status and changes nothing. */
    method RequestEvent() returns (out: Byte)
      ensures out == status
      ensures StatusValid(State()) ==> out in {STATUS_OK, STATUS_UNKNOWN_COMMAND}
    {
      out := status;
    }
  }
}

=== FILE: chain.dfy ===
/** The whole request/response chain: the host's send_command, the STM32's
    process_command and the Arduino's two Wire callbacks, composed with every
    UART and I2C transfer succeeding. */
module Chain {
  import opened Common
  import Host = HostController
  import Relay = StmRelay
  import Arduino = ArduinoSlave

  /** What the relay's two I2C calls report when the zone's slave runs the sketch
      and the bus works: the slave takes the command byte (receiveEvent), then
      hands back the status that byte set (requestEvent). */
  function HealthyBus(slave: Arduino.SlaveState, command: Byte): (bus: Relay.BusOutcome)
    ensures bus.transmitOk && bus.received.Some?
    ensures bus.received.value == (if command == Arduino.CMD_BLINK then Arduino.STATUS_OK else Arduino.STATUS_UNKNOWN_COMMAND)
  {
    var after := Arduino.OnReceive(slave, [command]);
    Relay.BusOutcome(true, Some(after.status))
  }

  /** One send_command(zone, opcode) on an open port, carried through the relay
      to the slave and back. */
  function RoundTrip(slave: Arduino.SlaveState, zone: int, opcode: int): (r: Host.CommandResult)
    ensures r.numberOfCommand == opcode
    // values struct.pack refuses never leave the host
    ensures !Host.Packable(zone, opcode) ==> r.errorCode == Host.ERR_STM
    // zone 1..9 with the sketch's one command gives CONFIRM; everything else 0x03
    ensures Host.Packable(zone, opcode) ==>
      r.errorCode == (if 1 <= zone <= 9 && opcode == Arduino.CMD_BLINK then Host.CONFIRM else Host.ERR_ADDR)
    ensures r.commandStatus == Host.STATUS_OK <==> IsByte(zone) && 1 <= zone <= 9 && opcode == Arduino.CMD_BLINK
  {
    var reply :=
      if Host.Packable(zone, opcode)
      then Some(Relay.Process(zone, opcode, HealthyBus(slave, opcode)).reply)
      else None;
    Host.SendOutcome(true, zone, opcode, true, reply)
  }

  /** The relay's "invalid address" and the sketch's "unknown command" are the
      same byte 0x03, so the host reports both identically and classifies both
      as an invalid address. */
  lemma InvalidZoneLooksLikeUnknownCommand(slave: Arduino.SlaveState, badZone: Byte, goodZone: Byte, opcode: Byte)
    requires !Relay.ValidZone(badZone) && Relay.ValidZone(goodZone) && opcode != Arduino.CMD_BLINK
    ensures RoundTrip(slave, badZone, opcode) == RoundTrip(slave, goodZone, opcode)
    ensures Host.Classify(RoundTrip(slave, goodZone, opcode).errorCode) == Host.InvalidAddress
  {
    assert Relay.ERR_ADDR == Arduino.STATUS_UNKNOWN_COMMAND;
  }

  /** The end-to-end run on the objects: a frame arriving at the relay is
      forwarded to the slave, whose answer the relay sends back. */
  method RelayToSlave(relay: Relay.Relay, slave: Arduino.Slave, zone: Byte, opcode: Byte) returns (reply: Byte)
    requires relay.Valid() && Relay.ValidZone(zone)
    modifies relay, relay.rxBuffer, slave
    ensures relay.Valid()
    ensures slave.State() == Arduino.OnReceive(old(slave.State()), [opcode])
    ensures reply == (if opcode == Arduino.CMD_BLINK then Relay.CONFIRM else Relay.ERR_ADDR)
    ensures relay.uartOut == old(relay.uartOut) + [reply]
    ensures relay.rxBuffer[..] == [zone, opcode]
    ensures relay.i2cLog == old(relay.i2cLog) + Relay.Process(zone, opcode, Relay.BusOutcome(true, Some(reply))).i2c
  {
    slave.ReceiveEvent([opcode]);
    var ack := slave.RequestEvent();
    relay.LoopOnce(Some((zone, opcode)), Relay.BusOutcome(true, Some(ack)));
    reply := relay.uartOut[|relay.uartOut| - 1];
  }
}

=== FILE: common.dfy ===
/** Values shared by the three programs of the request/response chain. */
module Common {

  /** An unsigned 8-bit value, as carried on the UART link and on the I2C bus. */
  type Byte = x: int | 0 <= x < 256

  predicate IsByte(x: int) {
    0 <= x < 256
  }

  datatype Option<T> = None | Some(value: T)

  /** The execution time a result reports, kept only as "reported as 0" versus
      "a measured wall-clock duration". */
  datatype ExecTime = Zero | Measured
}

=== FILE: host_controller.dfy ===
/** The host side (rasbery_py.py): STM32Controller.send_command frames
    [zone, command], writes it to the serial port, reads at most one status
    byte and turns it into a result dictionary. */
module HostController {
  import opened Common

  const CONFIRM: Byte := 0x00
  const ERR_TX: Byte := 0x01
  const ERR_ACK: Byte := 0x02
  const ERR_ADDR: Byte := 0x03
  const ERR_STM: Byte := 0x04

  const STATUS_OK: string := "OK"
  const STATUS_FAILED: string := "Failed"

  /** The dictionary send_command returns, key by key. */
  datatype CommandResult = CommandResult(
    numberOfCommand: int,
    errorCode: int,
    commandStatus: string,
    executionTime: ExecTime)

  /** The branch of the classification chain a response byte falls into. */
  datatype Response = Confirmed | ArduinoTxError | ArduinoAckError | InvalidAddress | Unknown

  /** The if/elif chain on the response code; ERR_STM has no branch of its own. */
  function Classify(code: Byte): (k: Response)
    ensures k == Confirmed <==> code == CONFIRM
    ensures k == ArduinoTxError <==> code == ERR_TX
    ensures k == ArduinoAckError <==> code == ERR_ACK
    ensures k == InvalidAddress <==> code == ERR_ADDR
    ensures k == Unknown <==> code > ERR_ADDR
    ensures code == ERR_STM ==> k == Unknown
  {
    if code == CONFIRM then Confirmed
    else if code == ERR_TX then ArduinoTxError
    else if code == ERR_ACK then ArduinoAckError
    else if code == ERR_ADDR then InvalidAddress
    else Unknown
  }

  function StatusOf(k: Response): string {
    if k == Confirmed then STATUS_OK else STATUS_FAILED
  }

  /** The dictionary of the three failure paths that never obtain a device byte. */
  function Failure(command: int): CommandResult {
    CommandResult(command, ERR_STM, STATUS_FAILED, Zero)
  }

  /** struct.pack('BB', zone, command) succeeds only for two values in 0..255. */
  predicate Packable(zone: int, command: int) {
    IsByte(zone) && IsByte(command)
  }

  /** The call got as far as reading a byte from the device. */
  predicate GotByte(ready: bool, zone: int, command: int, writeOk: bool, response: Option<Byte>) {
    ready && Packable(zone, command) && writeOk && response.Some?
  }

  /** The result of send_command for the abstract transport outcomes: `ready` (the
      handle exists and is open), `writeOk` (the write does not raise) and
      `response` (the byte read(1) delivers, None on timeout). */
  function SendOutcome(ready: bool, zone: int, command: int, writeOk: bool, response: Option<Byte>): (r: CommandResult)
    // the command number is echoed on every path
    ensures r.numberOfCommand == command
    // without a device byte the result is ERR_STM, "Failed", time 0
    ensures !GotByte(ready, zone, command, writeOk, response) ==> r == Failure(command)
    // a device byte is reported verbatim, with a measured time
    ensures GotByte(ready, zone, command, writeOk, response) ==>
      r.errorCode == response.value && r.executionTime == Measured
    // "OK" exactly when the device byte is CONFIRM; everything else is "Failed"
    ensures r.commandStatus == STATUS_OK <==>
      GotByte(ready, zone, command, writeOk, response) && response.value == CONFIRM
    ensures r.commandStatus in {STATUS_OK, STATUS_FAILED}
  {
    if !ready then Failure(command)
    else if !Packable(zone, command) then Failure(command)
    else if !writeOk then Failure(command)
    else match response
      case None => Failure(command)
      case Some(code) => CommandResult(command, code, StatusOf(Classify(code)), Measured)
  }

  /** ERR_STM read from the device gives the same error_code and status as a
      timeout; only the execution time (measured versus 0) tells them apart. */
  lemma ErrStmAmbiguous(zone: Byte, command: Byte)
    ensures SendOutcome(true, zone, command, true, Some(ERR_STM)).errorCode
         == SendOutcome(true, zone, command, true, None).errorCode
    ensures SendOutcome(true, zone, command, true, Some(ERR_STM)).commandStatus
         == SendOutcome(true, zone, command, true, None).commandStatus
    ensures SendOutcome(true, zone, command, true, Some(ERR_STM)).executionTime
         != SendOutcome(true, zone, command, true, None).executionTime
  {
  }

  /** What read(1) hands send_command: no byte when the read raises or times out. */
  function ReadResult(readFails: bool, pending: seq<Byte>): (b: Option<Byte>)
    ensures b.Some? <==> !readFails && pending != []
    ensures b.Some? ==> b.value == pending[0]
  {
    if readFails || pending == [] then None else Some(pending[0])
  }

  /** The serial port as the controller sees it. */
  class Serial {
    var isOpen: bool
    /** Whether a write raises (a pyserial SerialException or timeout). */
    var writeFails: bool
    /** Whether a read raises (a pyserial SerialException, e.g. the device was
        unplugged). */
    var readFails: bool
    /** Every byte written so far. */
    var written: seq<Byte>
    /** Bytes the device has sent that have not been read yet. */
    var incoming: seq<Byte>

    constructor (isOpen: bool, writeFails: bool, readFails: bool, incoming: seq<Byte>)
      ensures this.isOpen == isOpen && this.writeFails == writeFails && this.readFails == readFails
      ensures this.incoming == incoming && written == []
    {
      this.isOpen := isOpen;
      this.writeFails := writeFails;
      this.readFails := readFails;
      this.incoming := incoming;
      written := [];
    }

    method Write(packet: seq<Byte>) returns (ok: bool)
      modifies this
      ensures ok == !old(writeFails)
      ensures written == if ok then old(written) + packet else old(written)
      ensures isOpen == old(isOpen) && writeFails == old(writeFails) && readFails == old(readFails)
      ensures incoming == old(incoming)
    {
      ok := !writeFails;
      if ok {
        written := written + packet;
      }
    }

    /** read(1): at most one byte, the empty string when none arrives in time;
        `ok` is false when the read raises, and then nothing is consumed. */
    method Read1() returns (ok: bool, data: seq<Byte>)
      modifies this
      ensures ok == !old(readFails)
      ensures data == if !ok || old(incoming) == [] then [] else [old(incoming)[0]]
      ensures incoming == old(incoming)[|data|..]
      ensures isOpen == old(isOpen) && writeFails == old(writeFails) && readFails == old(readFails)
      ensures written == old(written)
    {
      ok := !readFails;
      if !ok || incoming == [] {
        data := [];
      } else {
        data := [incoming[0]];
        incoming := incoming[1..];
      }
    }
  }

  class Stm32Controller {
    /** None when opening the port failed in the constructor. */
    var ser: Serial?

    constructor (ser: Serial?)
      ensures this.ser == ser
    {
      this.ser := ser;
    }

    method SendCommand(zone: int, command: int) returns (r: CommandResult)
      modifies ser
      ensures ser == null ==> r == Failure(command)
      ensures ser != null ==>
        r == SendOutcome(old(ser.isOpen), zone, command, !old(ser.writeFails),
                         ReadResult(old(ser.readFails), old(ser.incoming)))
      // the packet is written, zone first, only on an open port and only when it packs
      ensures ser != null ==>
                ser.written == old(ser.written) +
                  (if old(ser.isOpen) && Packable(zone, command) && !old(ser.writeFails) then [zone, command] else [])
      // a byte is consumed only after a successful write, by a read that does not raise
      ensures ser != null ==>
                ser.incoming ==
                  (if old(ser.isOpen) && Packable(zone, command) && !old(ser.writeFails)
                      && !old(ser.readFails) && old(ser.incoming) != []
                   then old(ser.incoming)[1..] else old(ser.incoming))
      ensures ser != null ==>
                ser.isOpen == old(ser.isOpen) && ser.writeFails == old(ser.writeFails)
                && ser.readFails == old(ser.readFails)
    {
      if ser == null || !ser.isOpen {
        return Failure(command);
      }
      // the try block: struct.pack raises for values outside 0..255, a failed
      // write raises; both end in the except branch
      if !Packable(zone, command) {
        return Failure(command);
      }
      var packet: seq<Byte> := [zone, command];
      var ok := ser.Write(packet);
      if !ok {
        return Failure(command);
      }
      // a read that raises ends in the except branch like the write
      var readOk, response := ser.Read1();
      if !readOk {
        return Failure(command);
      }
      if response == [] {
        return Failure(command);
      }
      var code := response[0];
      var status := StatusOf(Classify(code));
      r := CommandResult(command, code, status, Measured);
    }
  }
}

=== FILE: py_text.dfy ===
/** The two Python text operations the command-table loader relies on:
    str.strip() with no argument, and int() on a string, in base 10 and in
    base 0 (base taken from the literal's prefix). */
module PyText {
  import opened Common

  /** str.isspace() for one character: the ASCII separators and the Unicode
      white-space characters Python strips. */
  predicate IsSpace(c: char) {
    var n := c as int;
    (0x09 <= n <= 0x0D) || (0x1C <= n <= 0x20) || n == 0x85 || n == 0xA0 || n == 0x1680
    || (0x2000 <= n <= 0x200A) || n == 0x2028 || n == 0x2029 || n == 0x202F || n == 0x205F || n == 0x3000
  }

  predicate AllSpace(s: string) {
    forall i :: 0 <= i < |s| ==> IsSpace(s[i])
  }

  /** No white space at either end (vacuously true of the empty string). */
  predicate Trimmed(s: string) {
    s == [] || (!IsSpace(s[0]) && !IsSpace(s[|s| - 1]))
  }

  /** str.strip(): drops white space from the front, then from the back. */
  function Strip(s: string): (r: string)
    ensures Trimmed(r) && |r| <= |s|
    ensures r == [] <==> AllSpace(s)
    ensures Trimmed(s) ==> r == s
    decreases |s|
  {
    if s != [] && IsSpace(s[0]) then
      assert forall i :: 1 <= i < |s| ==> s[i] == s[1..][i - 1];
      Strip(s[1..])
    else if s != [] && IsSpace(s[|s| - 1]) then
      assert forall i :: 0 <= i < |s| - 1 ==> s[i] == s[..|s| - 1][i];
      Strip(s[..|s| - 1])
    else s
  }

  /** `s` is white space `a`, then `m`, then white space `b`. */
  predicate SplitsAs(s: string, a: string, m: string, b: string) {
    AllSpace(a) && AllSpace(b) && s == a + m + b
  }

  /** What strip() removes is white space at the two ends and nothing else. */
  lemma {:induction false} StripSplits(s: string)
    ensures exists a, b :: SplitsAs(s, a, Strip(s), b)
    decreases |s|
  {
    if s != [] && IsSpace(s[0]) {
      StripSplits(s[1..]);
      var a, b :| SplitsAs(s[1..], a, Strip(s[1..]), b);
      SplitsFront(s, a, Strip(s), b);
    } else if s != [] && IsSpace(s[|s| - 1]) {
      StripSplits(s[..|s| - 1]);
      var a, b :| SplitsAs(s[..|s| - 1], a, Strip(s[..|s| - 1]), b);
      SplitsBack(s, a, Strip(s), b);
    } else {
      assert s == [] + s + [];
      assert SplitsAs(s, [], Strip(s), []);
    }
  }

  lemma SplitsFront(s: string, a: string, m: string, b: string)
    requires s != [] && IsSpace(s[0]) && SplitsAs(s[1..], a, m, b)
    ensures SplitsAs(s, [s[0]] + a, m, b)
  {
    AllSpaceAppend([s[0]], a);
    assert s == [s[0]] + s[1..];
  }

  lemma SplitsBack(s: string, a: string, m: string, b: string)
    requires s != [] && IsSpace(s[|s| - 1]) && SplitsAs(s[..|s| - 1], a, m, b)
    ensures SplitsAs(s, a, m, b + [s[|s| - 1]])
  {
    AllSpaceAppend(b, [s[|s| - 1]]);
    assert s == s[..|s| - 1] + [s[|s| - 1]];
  }

  lemma AllSpaceAppend(x: string, y: string)
    requires AllSpace(x) && AllSpace(y)
    ensures AllSpace(x + y)
  {
    forall i | 0 <= i < |x + y| ensures IsSpace((x + y)[i]) {
      if i < |x| { assert (x + y)[i] == x[i]; } else { assert (x + y)[i] == y[i - |x|]; }
    }
  }

  /** ... and it removes all of it: the middle of any such split is the result. */
  lemma {:induction false} StripUnique(a: string, m: string, b: string)
    requires AllSpace(a) && Trimmed(m) && AllSpace(b)
    ensures Strip(a + m + b) == m
    decreases |a| + |b|
  {
    var s := a + m + b;
    if a != [] {
      assert s[0] == a[0] && s[1..] == a[1..] + m + b;
      StripUnique(a[1..], m, b);
      assert Strip(s) == Strip(s[1..]);
    } else if m == [] && b != [] {
      assert s == b && s[1..] == [] + m + b[1..];
      StripUnique([], m, b[1..]);
      assert Strip(s) == Strip(s[1..]);
    } else if b != [] {
      assert s[0] == m[0] && s[|s| - 1] == b[|b| - 1];
      assert s[..|s| - 1] == [] + m + b[..|b| - 1];
      StripUnique([], m, b[..|b| - 1]);
      assert Strip(s) == Strip(s[..|s| - 1]);
    } else {
      assert s == m;
    }
  }

  /** What one item contributes to the comprehension below: its stripped
      text, or nothing when that is empty. */
  function Kept(item: string): (r: seq<string>)
    ensures r == [] <==> AllSpace(item)
    ensures r == [] || (|r| == 1 && r[0] != [] && Trimmed(r[0]))
  {
    var field := Strip(item);
    if field != [] then [field] else []
  }

  /** `[item.strip() for item in row if item.strip()]`. */
  function Normalize(row: seq<string>): (r: seq<string>)
    ensures |r| <= |row|
    ensures forall i :: 0 <= i < |r| ==> r[i] != [] && Trimmed(r[i])
    decreases |row|
  {
    if row == [] then [] else Kept(row[0]) + Normalize(row[1..])
  }

  /** Every non-blank field survives, stripped, and nothing else appears. */
  lemma {:induction false} NormalizeFields(row: seq<string>)
    ensures forall j :: 0 <= j < |row| && !AllSpace(row[j]) ==> Strip(row[j]) in Normalize(row)
    ensures forall x :: x in Normalize(row) ==>
      exists j :: 0 <= j < |row| && !AllSpace(row[j]) && x == Strip(row[j])
    decreases |row|
  {
    if row != [] {
      NormalizeFields(row[1..]);
      assert Normalize(row) == Kept(row[0]) + Normalize(row[1..]);
      forall j | 1 <= j < |row| ensures row[j] == row[1..][j - 1] { }
      forall x | x in Normalize(row)
        ensures exists j :: 0 <= j < |row| && !AllSpace(row[j]) && x == Strip(row[j])
      {
        if x !in Normalize(row[1..]) {
          assert x == Strip(row[0]);
        } else {
          var k :| 0 <= k < |row[1..]| && !AllSpace(row[1..][k]) && x == Strip(row[1..][k]);
          assert row[k + 1] == row[1..][k];
        }
      }
    }
  }

  /** A row whose fields are already stripped and non-empty is left as it is. */
  lemma {:induction false} NormalizeKeepsCleanRow(row: seq<string>)
    requires forall i :: 0 <= i < |row| ==> row[i] != [] && Trimmed(row[i])
    ensures Normalize(row) == row
    decreases |row|
  {
    if row != [] {
      NormalizeKeepsCleanRow(row[1..]);
    }
  }

  /** Normalising is done field by field, so it distributes over concatenation. */
  lemma {:induction false} NormalizeAppend(a: seq<string>, b: seq<string>)
    ensures Normalize(a + b) == Normalize(a) + Normalize(b)
    decreases |a|
  {
    if a == [] {
      assert a + b == b;
    } else {
      assert (a + b)[0] == a[0] && (a + b)[1..] == a[1..] + b;
      NormalizeAppend(a[1..], b);
      var k := Kept(a[0]);
      assert k + (Normalize(a[1..]) + Normalize(b)) == (k + Normalize(a[1..])) + Normalize(b);
    }
  }

  lemma NormalizeIdempotent(row: seq<string>)
    ensures Normalize(Normalize(row)) == Normalize(row)
  {
    NormalizeKeepsCleanRow(Normalize(row));
  }

  // ---------------------------------------------------------------------------
  // Integer literals

  /** The value of a digit character in any base up to 36; 36 for a non-digit. */
  function DigitValue(c: char): (d: nat)
    ensures d <= 36
  {
    if '0' <= c <= '9' then (c as int) - ('0' as int)
    else if 'a' <= c <= 'z' then (c as int) - ('a' as int) + 10
    else if 'A' <= c <= 'Z' then (c as int) - ('A' as int) + 10
    else 36
  }

  predicate AllDigits(ds: string, base: nat) {
    forall i :: 0 <= i < |ds| ==> DigitValue(ds[i]) < base
  }

  /** The value of a digit string, most significant digit first. */
  function DigitsValue(ds: string, base: nat): nat
    requires AllDigits(ds, base)
    decreases |ds|
  {
    if ds == [] then 0
    else DigitsValue(ds[..|ds| - 1], base) * base + DigitValue(ds[|ds| - 1])
  }

  /** One or more digits of the base, nothing else. */
  function ParseDigits(ds: string, base: nat): (r: Option<nat>)
    ensures r.Some? <==> ds != [] && AllDigits(ds, base)
  {
    if ds != [] && AllDigits(ds, base) then Some(DigitsValue(ds, base)) else None
  }

  predicate AllZeros(ds: string) {
    forall i :: 0 <= i < |ds| ==> ds[i] == '0'
  }

  /** The unsigned part of a base-0 literal: 0x/0o/0b prefixes (either case), or
      decimal, where a leading 0 is only allowed in a literal of zeros. */
  function ParseUnsignedBase0(body: string): (r: Option<nat>)
    ensures r.Some? && |body| >= 2 && body[0] == '0' && body[1] in "0123456789" ==> AllZeros(body)
  {
    if |body| >= 2 && body[0] == '0' && body[1] in "xX" then ParseDigits(body[2..], 16)
    else if |body| >= 2 && body[0] == '0' && body[1] in "oO" then ParseDigits(body[2..], 8)
    else if |body| >= 2 && body[0] == '0' && body[1] in "bB" then ParseDigits(body[2..], 2)
    else if body != [] && body[0] == '0' then (if AllZeros(body) then Some(0) else None)
    else ParseDigits(body, 10)
  }

  /** An optional leading sign: whether it is '-', and the text after it. */
  function SplitSign(s: string): (bool, string) {
    if |s| > 0 && (s[0] == '-' || s[0] == '+') then (s[0] == '-', s[1..]) else (false, s)
  }

  function Signed(negative: bool, magnitude: Option<nat>): Option<int> {
    match magnitude
    case None => None
    case Some(m) => Some(if negative then 0 - (m as int) else m as int)
  }

  /** int(s, 0) on an already stripped string. */
  function ParseIntBase0(s: string): (r: Option<int>)
    ensures r.Some? ==> s != []
    // the sign decides the sign of the value: no minus sign, no negative value
    ensures r.Some? && !SplitSign(s).0 ==> r.value >= 0
    ensures r.Some? && SplitSign(s).0 ==> r.value <= 0
  {
    var (negative, body) := SplitSign(s);
    Signed(negative, ParseUnsignedBase0(body))
  }

  /** int(s) on an already stripped string. */
  function ParseIntBase10(s: string): (r: Option<int>)
    ensures r.Some? ==> s != []
    ensures r.Some? && !SplitSign(s).0 ==> r.value >= 0
    ensures r.Some? && SplitSign(s).0 ==> r.value <= 0
  {
    var (negative, body) := SplitSign(s);
    Signed(negative, ParseDigits(body, 10))
  }

  // ---------------------------------------------------------------------------
  // Writing numbers, the partner of parsing

  lemma DivStep(n: nat, base: nat)
    requires 2 <= base <= n
    ensures 0 < n / base < n && n % base < base && n == n / base * base + n % base
  {
    var q, d := n / base, n % base;
    assert n == q * base + d && 0 <= d < base;
    if q <= 0 {
      MulNonPositive(q, base);
      assert false;
    }
    MulAtLeastDouble(q, base);
  }

  lemma MulNonPositive(q: int, b: nat)
    requires q <= 0
    ensures q * b <= 0
  {
  }

  lemma MulAtLeastDouble(q: nat, b: nat)
    requires q >= 1 && b >= 2
    ensures q * b >= 2 * q
  {
  }

  function DigitChar(d: nat): (c: char)
    requires d < 36
    ensures DigitValue(c) == d
  {
    if d < 10 then ('0' as int + d) as char else ('a' as int + d - 10) as char
  }

  /** The digits of n in the base, most significant first, no leading zero. */
  function ToDigits(n: nat, base: nat): (r: string)
    requires 2 <= base <= 36
    ensures r != [] && AllDigits(r, base)
    ensures r[0] == '0' <==> n == 0
    ensures base <= 10 ==> forall i :: 0 <= i < |r| ==> r[i] in "0123456789"
    decreases n
  {
    if n < base then [DigitChar(n)]
    else
      var q, d := n / base, n % base;
      DivStep(n, base);
      ToDigits(q, base) + [DigitChar(d)]
  }

  lemma {:induction false} DigitsRoundTrip(n: nat, base: nat)
    requires 2 <= base <= 36
    ensures DigitsValue(ToDigits(n, base), base) == n
    decreases n
  {
    var r := ToDigits(n, base);
    if n >= base {
      var q, d := n / base, n % base;
      DivStep(n, base);
      DigitsRoundTrip(q, base);
      assert r[..|r| - 1] == ToDigits(q, base);
    } else {
      assert r[..0] == [];
    }
  }

  function DecimalLiteral(n: nat): string {
    ToDigits(n, 10)
  }

  function HexLiteral(n: nat): string {
    "0x" + ToDigits(n, 16)
  }

  /** Decimal text reads back as the same number, in base 10 and in base 0. */
  lemma DecimalRoundTrip(n: nat)
    ensures ParseIntBase10(DecimalLiteral(n)) == Some(n)
    ensures ParseIntBase0(DecimalLiteral(n)) == Some(n)
  {
    var d := DecimalLiteral(n);
    DigitsRoundTrip(n, 10);
    assert SplitSign(d) == (false, d);
    UnsignedDecimal(n);
  }

  /** The same with a minus sign in front. */
  lemma NegativeDecimalRoundTrip(n: nat)
    ensures ParseIntBase10("-" + DecimalLiteral(n)) == Some(0 - n)
    ensures ParseIntBase0("-" + DecimalLiteral(n)) == Some(0 - n)
  {
    var d := DecimalLiteral(n);
    DigitsRoundTrip(n, 10);
    assert ("-" + d)[1..] == d;
    assert SplitSign("-" + d) == (true, d);
    UnsignedDecimal(n);
  }

  lemma UnsignedDecimal(n: nat)
    ensures ParseUnsignedBase0(DecimalLiteral(n)) == Some(n)
  {
    var d := DecimalLiteral(n);
    DigitsRoundTrip(n, 10);
    if n == 0 {
      assert d == "0";
    } else {
      assert d[0] != '0';
    }
  }

  /** 0x-prefixed hexadecimal text reads back as the same number in base 0. */
  lemma HexRoundTrip(n: nat)
    ensures ParseIntBase0(HexLiteral(n)) == Some(n)
  {
    var h := HexLiteral(n);
    DigitsRoundTrip(n, 16);
    assert h[2..] == ToDigits(n, 16);
  }

  /** Base 0 refuses a decimal literal with a leading zero, such as "05". */
  lemma LeadingZeroRejected(n: nat)
    requires n > 0
    ensures ParseIntBase0("0" + DecimalLiteral(n)) == None
    ensures ParseIntBase10("0" + DecimalLiteral(n)) == Some(n)
  {
    var d := DecimalLiteral(n);
    var s := "0" + d;
    assert s[1] == d[0];
    assert !AllZeros(s) by { assert s[1] != '0'; }
    DigitsRoundTrip(n, 10);
    assert s[..|s| - 1] == "0" + d[..|d| - 1];
    LeadingZeroValue(d);
  }

  /** A leading zero does not change the value of a digit string. */
  lemma {:induction false} LeadingZeroValue(d: string)
    requires d != [] && AllDigits(d, 10)
    ensures AllDigits("0" + d, 10) && DigitsValue("0" + d, 10) == DigitsValue(d, 10)
    decreases |d|
  {
    var s := "0" + d;
    assert s[..|s| - 1] == "0" + d[..|d| - 1];
    if |d| > 1 {
      LeadingZeroValue(d[..|d| - 1]);
    } else {
      assert s[..|s| - 1] == "0";
      assert d[..0] == [];
      assert "0"[..0] == [];
    }
  }
}

=== FILE: stm_relay.dfy ===
/** The STM32 firmware (stm.c): receives a two-byte frame [zone, command] from the
    host over UART, forwards the command byte over I2C to the Arduino of that zone,
    reads back its one-byte acknowledgment and answers the host with exactly one byte. */
module StmRelay {
  import opened Common

  /** Base of the Arduino slave addresses; zone z lives at I2C_BASE_ADDR + z. */
  const I2C_BASE_ADDR: Byte := 0x20
  const CONFIRM: Byte := 0x00
  const ERR_TX: Byte := 0x01
  const ERR_ACK: Byte := 0x02
  const ERR_ADDR: Byte := 0x03
  /** The value the local `ack` holds before the I2C receive fills it in. */
  const ACK_UNSET: Byte := 0xFF

  predicate ValidZone(zone: Byte) {
    !(zone < 1 || zone > 9)
  }

  /** The 7-bit slave address of a zone, computed in uint8_t arithmetic. */
  function SlaveAddress(zone: Byte): (addr: Byte)
    requires ValidZone(zone)
    ensures 0x21 <= addr <= 0x29
    ensures addr == I2C_BASE_ADDR + zone
  {
    (I2C_BASE_ADDR + zone) % 256
  }

  /** The HAL's 16-bit DevAddress argument, `addr << 1`: the slave address in the
      upper seven bits of the address byte, read/write bit clear. */
  function WireAddress(addr: Byte): (w: int)
    requires 0x21 <= addr <= 0x29
    ensures IsByte(w) && w % 2 == 0 && w / 2 == addr
  {
    (addr * 2) % 0x1_0000
  }

  /** One I2C transaction started by the STM32 as bus master. */
  datatype Transfer =
    | MasterTransmit(devAddress: int, data: seq<Byte>)
    | MasterReceive(devAddress: int, size: nat)

  /** What the two HAL I2C calls report: whether the transmit returned HAL_OK, and
      the byte the receive delivered (None when it did not return HAL_OK). */
  datatype BusOutcome = BusOutcome(transmitOk: bool, received: Option<Byte>)

  /** The effect of one process_command call: the I2C traffic it starts and the
      single byte it sends back to the host. */
  datatype Exchange = Exchange(i2c: seq<Transfer>, reply: Byte)

  /** process_command on the frame byte `zone` and `command`. */
  function Process(zone: Byte, command: Byte, bus: BusOutcome): (e: Exchange)
    // an invalid zone answers ERR_ADDR with no I2C traffic at all
    ensures !ValidZone(zone) ==> e == Exchange([], ERR_ADDR)
    // a valid zone always starts with the command byte, alone, sent to that zone's slave
    ensures ValidZone(zone) ==>
      |e.i2c| >= 1 && e.i2c[0] == MasterTransmit(WireAddress(SlaveAddress(zone)), [command])
    // a failed transmit answers ERR_TX and no receive is attempted
    ensures ValidZone(zone) && !bus.transmitOk ==> |e.i2c| == 1 && e.reply == ERR_TX
    // after a good transmit exactly one byte is read back from the same slave
    ensures ValidZone(zone) && bus.transmitOk ==>
      e.i2c == [e.i2c[0], MasterReceive(WireAddress(SlaveAddress(zone)), 1)]
    // a failed receive answers ERR_ACK; a good one forwards the slave's byte unchanged
    ensures ValidZone(zone) && bus.transmitOk ==>
      e.reply == (if bus.received.Some? then bus.received.value else ERR_ACK)
    // the host hears CONFIRM only when both transfers succeeded and the slave itself said CONFIRM
    ensures e.reply == CONFIRM <==> ValidZone(zone) && bus.transmitOk && bus.received == Some(CONFIRM)
    // every transfer addresses the slave of the zone from byte 0
    ensures forall t :: t in e.i2c ==> ValidZone(zone) && t.devAddress == WireAddress(SlaveAddress(zone))
  {
    if zone < 1 || zone > 9 then Exchange([], ERR_ADDR)
    else
      var dev := WireAddress(SlaveAddress(zone));
      var tx := MasterTransmit(dev, [command]);
      if !bus.transmitOk then Exchange([tx], ERR_TX)
      else
        var rx := MasterReceive(dev, 1);
        match bus.received
        case None => Exchange([tx, rx], ERR_ACK)
        case Some(ack) => Exchange([tx, rx], ack)
  }

  /** The firmware's globals: the UART receive buffer and, as logs, what it has
      sent on the UART to the host and on the I2C bus to the slaves. */
  class Relay {
    const rxBuffer: array<Byte>
    var uartOut: seq<Byte>
    var i2cLog: seq<Transfer>

    ghost predicate Valid()
      reads this
    {
      rxBuffer.Length == 2
    }

    constructor ()
      ensures Valid() && fresh(rxBuffer)
      ensures rxBuffer[..] == [0, 0] && uartOut == [] && i2cLog == []
    {
      rxBuffer := new Byte[2](_ => 0);
      uartOut := [];
      i2cLog := [];
    }

    /** process_command: byte 0 of the buffer is the zone, byte 1 the command. */
    method ProcessCommand(bus: BusOutcome)
      requires Valid()
      modifies this
      ensures Valid() && rxBuffer[..] == old(rxBuffer[..])
      ensures uartOut == old(uartOut) + [Process(rxBuffer[0], rxBuffer[1], bus).reply]
      ensures i2cLog == old(i2cLog) + Process(rxBuffer[0], rxBuffer[1], bus).i2c
    {
      var zone := rxBuffer[0];
      var command := rxBuffer[1];

      if zone < 1 || zone > 9 {
        var err := ERR_ADDR;
        uartOut := uartOut + [err];
        return;
      }

      var arduinoAddr := (I2C_BASE_ADDR + zone) % 256;
      i2cLog := i2cLog + [MasterTransmit(WireAddress(arduinoAddr), [command])];
      if !bus.transmitOk {
        var err := ERR_TX;
        uartOut := uartOut + [err];
        return;
      }

      var ack := ACK_UNSET;
      i2cLog := i2cLog + [MasterReceive(WireAddress(arduinoAddr), 1)];
      if bus.received.None? {
        var err := ERR_ACK;
        uartOut := uartOut + [err];
        return;
      }
      ack := bus.received.value;

      uartOut := uartOut + [ack];
    }

    /** One pass of loop_stm32: when the two-byte UART receive succeeds (`frame` is
        Some), the bytes land in the buffer and the command is processed; otherwise
        nothing happens. */
    method LoopOnce(frame: Option<(Byte, Byte)>, bus: BusOutcome)
      requires Valid()
      modifies this, rxBuffer
      ensures Valid()
      ensures frame.None? ==> rxBuffer[..] == old(rxBuffer[..]) && uartOut == old(uartOut) && i2cLog == old(i2cLog)
      ensures frame.Some? ==> rxBuffer[..] == [frame.value.0, frame.value.1]
      ensures frame.Some? ==>
        var e := Process(frame.value.0, frame.value.1, bus);
        uartOut == old(uartOut) + [e.reply] && i2cLog == old(i2cLog) + e.i2c
    {
      if frame.Some? {
        rxBuffer[0] := frame.value.0;
        rxBuffer[1] := frame.value.1;
        ProcessCommand(bus);
      }
    }
  }
}

=== FILE: test_controller.dfy ===
/** The offline variant of the host controller (test_uart.py): loads a command
    table from pipe-separated rows, and answers execute_command with a random
    lookup and a simulated send instead of serial I/O. */
module TestController {
  import opened Common
  import opened PyText

  const CONFIRM: Byte := 0x00
  const ERR_TX: Byte := 0x01
  const ERR_ACK: Byte := 0x02
  const ERR_ADDR: Byte := 0x03
  const ERR_STM: Byte := 0x04
  const ERR_CMD: Byte := 0x05

  const RESPONSE_TEXT: map<int, string> := map[
    CONFIRM := "OK",
    ERR_TX := "Arduino TX error",
    ERR_ACK := "Arduino ACK timeout/error",
    ERR_ADDR := "Invalid Arduino address",
    ERR_STM := "STM internal error"]

  /** RESPONSE_TEXT.get(code, "Simulated error"). */
  function ResponseText(code: int): string {
    if code in RESPONSE_TEXT then RESPONSE_TEXT[code] else "Simulated error"
  }

  /** One entry of the command table; the loader checks no range. */
  datatype CommandDef = CommandDef(name: string, number: int, zone: int)

  /** One row of the table file, already split at '|': the fields are stripped,
      blank ones dropped, and exactly three must remain, read as
      number (base 0), name, zone (base 10). */
  function ParseRow(row: seq<string>): (d: Option<CommandDef>)
    ensures d.Some? <==>
              |Normalize(row)| == 3
              && ParseIntBase0(Normalize(row)[0]).Some? && ParseIntBase10(Normalize(row)[2]).Some?
    ensures d.Some? ==> d.value.name != [] && Trimmed(d.value.name)
  {
    var fields := Normalize(row);
    if |fields| != 3 then None
    else match (ParseIntBase0(fields[0]), ParseIntBase10(fields[2]))
      case (Some(number), Some(zone)) => Some(CommandDef(fields[1], number, zone))
      case _ => None
  }

  /** The table the loader builds: one entry per accepted row, in row order. */
  function LoadRows(rows: seq<seq<string>>): (t: seq<CommandDef>)
    ensures |t| <= |rows|
    decreases |rows|
  {
    if rows == [] then [] else Accepted(rows[0]) + LoadRows(rows[1..])
  }

  /** The entry one row contributes: none, or the one it parses to. */
  function Accepted(row: seq<string>): (t: seq<CommandDef>)
    ensures |t| <= 1
  {
    match ParseRow(row)
    case None => []
    case Some(d) => [d]
  }

  /** Every accepted row gives an entry, and every entry comes from an accepted row. */
  lemma {:induction false} LoadRowsEntries(rows: seq<seq<string>>)
    ensures forall i :: 0 <= i < |rows| && ParseRow(rows[i]).Some? ==> ParseRow(rows[i]).value in LoadRows(rows)
    ensures forall d :: d in LoadRows(rows) ==> exists i :: 0 <= i < |rows| && ParseRow(rows[i]) == Some(d)
    decreases |rows|
  {
    if rows != [] {
      LoadRowsEntries(rows[1..]);
      forall i | 1 <= i < |rows| ensures rows[i] == rows[1..][i - 1] { }
      forall d | d in LoadRows(rows)
        ensures exists i :: 0 <= i < |rows| && ParseRow(rows[i]) == Some(d)
      {
        if d !in LoadRows(rows[1..]) {
          assert ParseRow(rows[0]) == Some(d);
        } else {
          var k :| 0 <= k < |rows[1..]| && ParseRow(rows[1..][k]) == Some(d);
          assert rows[k + 1] == rows[1..][k];
        }
      }
    }
  }

  /** Loading is order preserving: the table of two files read one after the
      other is the first table followed by the second. */
  lemma {:induction false} LoadRowsAppend(a: seq<seq<string>>, b: seq<seq<string>>)
    ensures LoadRows(a + b) == LoadRows(a) + LoadRows(b)
    decreases |a|
  {
    if a == [] {
      assert a + b == b;
    } else {
      assert (a + b)[1..] == a[1..] + b;
      LoadRowsAppend(a[1..], b);
    }
  }

  lemma LoadRowsSingle(row: seq<string>)
    ensures LoadRows([row]) == Accepted(row)
  {
    assert [row][1..] == [];
    assert LoadRows([row]) == Accepted(row) + LoadRows([]);
  }

  /** A rejected row only ever drops itself. */
  lemma BadRowSkipped(before: seq<seq<string>>, row: seq<string>, after: seq<seq<string>>)
    requires ParseRow(row).None?
    ensures LoadRows(before + [row] + after) == LoadRows(before) + LoadRows(after)
  {
    LoadRowsAppend(before + [row], after);
    LoadRowsAppend(before, [row]);
    LoadRowsSingle(row);
  }

  lemma NormalizeThree(f0: string, f1: string, f2: string, a: string, b: string, c: string)
    requires Strip(f0) == a && Strip(f1) == b && Strip(f2) == c
    requires a != [] && b != [] && c != []
    ensures Normalize([f0, f1, f2]) == [a, b, c]
  {
    var row := [f0, f1, f2];
    var r1 := row[1..];
    var r2 := r1[1..];
    assert r2[1..] == [];
    assert Normalize(r2) == [c] + Normalize([]);
    assert Normalize(r1) == [b] + Normalize(r2);
    assert Normalize(row) == [a] + Normalize(r1);
  }

  lemma ParsedRow(row: seq<string>, a: string, b: string, c: string, number: int, zone: int)
    requires Normalize(row) == [a, b, c]
    requires ParseIntBase0(a) == Some(number) && ParseIntBase10(c) == Some(zone)
    ensures Accepted(row) == [CommandDef(b, number, zone)]
  {
  }

  lemma ParseDigit(s: string, v: nat)
    requires |s| == 1 && '1' <= s[0] <= '9' && v == (s[0] as int) - ('0' as int)
    ensures ParseIntBase0(s) == Some(v) && ParseIntBase10(s) == Some(v)
  {
    assert s[..0] == "";
    assert s[0] != '0' && s[0] != '-' && s[0] != '+';
    assert SplitSign(s) == (false, s);
    assert AllDigits(s, 10);
    assert DigitsValue(s, 10) == DigitsValue(s[..0], 10) * 10 + DigitValue(s[0]);
  }

  lemma ParseHex05()
    ensures ParseIntBase0("0x05") == Some(5)
  {
    assert "0x05"[2..] == "05";
    assert "05"[..1] == "0" && "0"[..0] == "";
    assert DigitsValue("05", 16) == 5;
    assert SplitSign("0x05") == (false, "0x05");
  }

  lemma Parse300And42()
    ensures ParseIntBase0("300") == Some(300) && ParseIntBase10("42") == Some(42)
  {
    assert "300"[..2] == "30" && "30"[..1] == "3" && "3"[..0] == "";
    assert DigitsValue("30", 10) == 30;
    assert DigitsValue("300", 10) == 300;
    assert SplitSign("300") == (false, "300");
    assert "42"[..1] == "4" && "4"[..0] == "";
    assert DigitsValue("42", 10) == 42;
    assert SplitSign("42") == (false, "42");
  }

  lemma RejectedRow(row: seq<string>, a: string, b: string, c: string)
    requires Normalize(row) == [a, b, c] && ParseIntBase0(a).None?
    ensures Accepted(row) == []
  {
  }

  lemma ParseX()
    ensures ParseIntBase0("x") == None
  {
    assert DigitValue('x') == 33;
    assert SplitSign("x") == (false, "x");
  }

  lemma StripHexField()
    ensures Strip(" 0x05 ") == "0x05"
  {
    StripUnique(" ", "0x05", " ");
    assert " " + "0x05" + " " == " 0x05 ";
  }

  lemma StripZoneField()
    ensures Strip(" 3") == "3"
  {
    StripUnique(" ", "3", "");
    assert " " + "3" + "" == " 3";
  }

  lemma FieldsHex()
    ensures Normalize([" 0x05 ", "OPEN_VALVE", " 3"]) == ["0x05", "OPEN_VALVE", "3"]
  {
    StripHexField();
    StripZoneField();
    NormalizeThree(" 0x05 ", "OPEN_VALVE", " 3", "0x05", "OPEN_VALVE", "3");
  }

  lemma BlankField()
    ensures Normalize([" "]) == []
  {
    assert AllSpace(" ") by {
      assert IsSpace(" "[0]);
    }
    var rest := [" "][1..];
    assert rest == [];
    assert Normalize([" "]) == [] + Normalize(rest);
  }

  lemma FieldsDecimal()
    ensures Normalize(["6", "CLOSE_VALVE", "3", " "]) == ["6", "CLOSE_VALVE", "3"]
  {
    NormalizeKeepsCleanRow(["6", "CLOSE_VALVE", "3"]);
    BlankField();
    NormalizeAppend(["6", "CLOSE_VALVE", "3"], [" "]);
    assert ["6", "CLOSE_VALVE", "3", " "] == ["6", "CLOSE_VALVE", "3"] + [" "];
  }

  /** `0x05 | OPEN_VALVE | 3`. */
  lemma SampleRowHex()
    ensures Accepted([" 0x05 ", "OPEN_VALVE", " 3"]) == [CommandDef("OPEN_VALVE", 5, 3)]
  {
    FieldsHex();
    ParseHex05();
    ParseDigit("3", 3);
    ParsedRow([" 0x05 ", "OPEN_VALVE", " 3"], "0x05", "OPEN_VALVE", "3", 5, 3);
  }

  /** `6|CLOSE_VALVE|3| `: the trailing '|' gives a blank field. */
  lemma SampleRowDecimal()
    ensures Accepted(["6", "CLOSE_VALVE", "3", " "]) == [CommandDef("CLOSE_VALVE", 6, 3)]
  {
    FieldsDecimal();
    ParseDigit("6", 6);
    ParseDigit("3", 3);
    ParsedRow(["6", "CLOSE_VALVE", "3", " "], "6", "CLOSE_VALVE", "3", 6, 3);
  }

  /** `x|BAD|3`: the opcode does not parse, so the row is dropped. */
  lemma SampleRowBad()
    ensures Accepted(["x", "BAD", "3"]) == []
  {
    NormalizeKeepsCleanRow(["x", "BAD", "3"]);
    ParseX();
    RejectedRow(["x", "BAD", "3"], "x", "BAD", "3");
  }

  lemma LoadThree(r0: seq<string>, r1: seq<string>, r2: seq<string>)
    ensures LoadRows([r0, r1, r2]) == Accepted(r0) + Accepted(r1) + Accepted(r2)
  {
    assert [r0, r1, r2][1..] == [r1, r2] && [r1, r2][1..] == [r2];
    LoadRowsSingle(r2);
    assert LoadRows([r1, r2]) == Accepted(r1) + Accepted(r2);
  }

  /** The three sample rows load as two entries, in order, the bad row dropped. */
  lemma SampleTable()
    ensures LoadRows([[" 0x05 ", "OPEN_VALVE", " 3"], ["6", "CLOSE_VALVE", "3", " "], ["x", "BAD", "3"]])
         == [CommandDef("OPEN_VALVE", 5, 3), CommandDef("CLOSE_VALVE", 6, 3)]
  {
    SampleRowHex();
    SampleRowDecimal();
    SampleRowBad();
    LoadThree([" 0x05 ", "OPEN_VALVE", " 3"], ["6", "CLOSE_VALVE", "3", " "], ["x", "BAD", "3"]);
  }

  /** The loader accepts an opcode beyond a byte and a zone beyond 1..9. */
  lemma NoRangeCheck()
    ensures Accepted(["300", "WIDE", "42"]) == [CommandDef("WIDE", 300, 42)]
  {
    NormalizeKeepsCleanRow(["300", "WIDE", "42"]);
    Parse300And42();
    ParsedRow(["300", "WIDE", "42"], "300", "WIDE", "42", 300, 42);
  }

  /** The dictionary _result builds. */
  datatype TestResult = TestResult(command: string, errorCode: int, commandStatus: string, executionTime: ExecTime)

  /** _result: "OK" exactly for code 0x00, otherwise "Failed | " and the text. */
  function Result(name: string, code: int, status: string, time: ExecTime): (r: TestResult)
    ensures r.command == name && r.errorCode == code && r.executionTime == time
    ensures r.commandStatus == "OK" <==> code == CONFIRM
    ensures code != CONFIRM ==> r.commandStatus == "Failed | " + status
  {
    TestResult(name, code, if code == 0x00 then "OK" else "Failed | " + status, time)
  }

  /** The outcome random.random() and random.choice pick in _send. */
  datatype SimulatedOutcome = NoError | TxError | AckError | AddrError | StmError

  function SimulatedCode(o: SimulatedOutcome): Byte {
    match o
    case NoError => CONFIRM
    case TxError => ERR_TX
    case AckError => ERR_ACK
    case AddrError => ERR_ADDR
    case StmError => ERR_STM
  }

  /** _send: ignores zone and number, reports the drawn outcome with a measured time. */
  function SimulatedSend(zone: int, number: int, name: string, o: SimulatedOutcome): (r: TestResult)
    ensures r.command == name && r.executionTime == Measured
    ensures CONFIRM <= r.errorCode <= ERR_STM
    ensures r.commandStatus == "OK" <==> o == NoError
    ensures o != NoError ==> r.commandStatus == "Failed | " + RESPONSE_TEXT[r.errorCode]
  {
    var code := SimulatedCode(o);
    var text := if o == NoError then "OK" else ResponseText(code);
    Result(name, code, text, Measured)
  }

  /** What _find_command hands back: zone, number and the name. */
  datatype Found = Found(zone: int, number: int, name: string)

  /** _find_command: ignores the table and returns the two random draws
      randint(1, 10) and randint(0, 255) with the name; it never misses. */
  function FindCommandStub(name: string, zoneDraw: int, numberDraw: int): (r: Option<Found>)
    requires 1 <= zoneDraw <= 10 && 0 <= numberDraw <= 255
    ensures r.Some? && r.value.name == name
    ensures 1 <= r.value.zone <= 10 && IsByte(r.value.number)
  {
    Some(Found(zoneDraw, numberDraw, name))
  }

  /** execute_command for the lookup result `found` and the simulated outcome. */
  function ExecuteCommand(name: string, found: Option<Found>, o: SimulatedOutcome): (r: TestResult)
    ensures found.None? ==> r == TestResult(name, ERR_CMD, "Failed | " + "Command not found", Zero)
    ensures found.Some? ==> r.command == found.value.name && r.executionTime == Measured
    ensures found.Some? ==> CONFIRM <= r.errorCode <= ERR_STM
    // ERR_CMD is reserved for a missing command
    ensures r.errorCode == ERR_CMD <==> found.None?
  {
    match found
    case None => Result(name, ERR_CMD, "Command not found", Zero)
    case Some(Found(zone, number, originalName)) => SimulatedSend(zone, number, originalName, o)
  }

  /** With the random stub as lookup the not-found branch is never taken. */
  lemma StubNeverMisses(name: string, zoneDraw: int, numberDraw: int, o: SimulatedOutcome)
    requires 1 <= zoneDraw <= 10 && 0 <= numberDraw <= 255
    ensures ExecuteCommand(name, FindCommandStub(name, zoneDraw, numberDraw), o).errorCode != ERR_CMD
    ensures ExecuteCommand(name, FindCommandStub(name, zoneDraw, numberDraw), o).command == name
  {
  }

  class Stm32Controller {
    var commands: seq<CommandDef>

    /** `table` is the file's rows, None when the file does not exist. */
    constructor (table: Option<seq<seq<string>>>)
      ensures commands == if table.Some? then LoadRows(table.value) else []
    {
      commands := [];
      new;
      LoadCommandsFromCsv(table);
    }

    /** _load_commands_from_csv: appends the accepted rows; a missing file adds nothing. */
    method LoadCommandsFromCsv(table: Option<seq<seq<string>>>)
      modifies this
      ensures commands == old(commands) + if table.Some? then LoadRows(table.value) else []
    {
      if table.None? {
        return;
      }
      var rows := table.value;
      var i := 0;
      assert rows[0..] == rows;
      while i < |rows|
        invariant 0 <= i <= |rows|
        invariant commands + LoadRows(rows[i..]) == old(commands) + LoadRows(rows)
      {
        var row := rows[i];
        ghost var rest := LoadRows(rows[i + 1..]);
        assert LoadRows(rows[i..]) == Accepted(row) + rest by {
          assert rows[i..][1..] == rows[i + 1..];
        }
        var fields := Normalize(row);
        if |fields| != 3 {
          assert Accepted(row) + rest == rest;
          i := i + 1;
          continue;
        }
        var number := ParseIntBase0(fields[0]);
        var zone := ParseIntBase10(fields[2]);
        if number.None? || zone.None? {
          assert Accepted(row) + rest == rest;
          i := i + 1;
          continue;
        }
        var entry := CommandDef(fields[1], number.value, zone.value);
        assert commands + ([entry] + rest) == commands + [entry] + rest;
        commands := commands + [entry];
        i := i + 1;
      }
    }
  }
}
